=== FILE: README.md ===
# FoldingLayout fold controller in Dafny

This project models the fold controller of `FoldingLayout`, an Android `FrameLayout`. The layout switches its visible child with a page-fold animation. The model has no graphics. What remains is a state machine with integer arithmetic around it:

- **Fold state machine** (`FoldingLayout` module). The state holds the child registry (`views`) and a visibility flag per registered child. It also holds `currentView`, `nextView`, the `folding` flag, `foldingDirection`, the start time, the duration and the quadrant set of the current fold. The transitions are pure functions: `Fold`, `FoldReverse`, `FoldDirection`, `SetDirection`, `ReverseDirection`, `StopAnimation`, `Layout`, `HideAllViews` and `ShowSingleChild`.
- **Tick** (`FoldingLayout.Tick`). This models one `onDraw`. The host passes in the clock reading `now`, the interpolator curve (any `real -> real`) and the measured height. A tick does one of three things:
  - while idle, it draws the children normally;
  - it finishes the fold, which shows the new child and produces the listener event;
  - otherwise it leaves the state unchanged and describes the frame: two static quadrants plus exactly one rotating, tinted quadrant.
- **Lighting filter** (`Lighting` module). `applyLightness` uses Java `int` semantics (module `JavaInt`): 32-bit wrap-around multiplication, division that truncates toward zero, and the alpha byte that `Color.argb` keeps.
- **Split geometry** (`Geometry` module). `generateRectangles` and `clipBitmap` are modelled as strip descriptors. Each descriptor records the source rows [top, bottom) of a view and the size of the bitmap those rows are drawn into.
- **Properties across calls** (`FoldingProperties` module): repeated folds cycle through the children; `fold()` ignores re-entry; `reverseDirection` is an involution; a direction change during a fold has a defined effect; the rotating quadrant switches at the midpoint; fold frames only darken; one complete two-child fold is worked through; and a visibility invariant holds over any sequence of calls.

The direction is modelled as any Java `int`, as `setDirection(int)` allows. The clamp in `fold()` keeps `nextView` a valid index for every direction. `(current + direction) mod n` holds only for FOLD_UP and FOLD_DOWN.

In a few places the code does not do what one might expect. The model follows the code:

- **Layout keeps `currentView`.** `onLayout` rebuilds the registry and shows child 0 on every idle layout pass. It leaves `currentView` as it was, so a non-zero current view ends up hidden (`LayoutHidesNonzeroCurrent`).
- **Direction is read on every tick.** `onDraw` reads `foldingDirection` on each tick. Changing it during a fold therefore mirrors the fold in flight (`DirectionChangeMirrorsFoldInFlight`), and the listener sees the direction in force at completion. The next index and the quadrants are still the ones chosen when the fold started.
- **Duration 0 is not special.** The completion test `deltaTime >= duration` decides a tick before the interpolated value is used. A zero or negative duration therefore completes on the first tick. There is no clamping: Java float division by zero does not throw, and its value is discarded.
- **Odd heights squeeze the bottom half.** The bottom half of an odd-height view is one row taller than the bitmap it is drawn into, so it is squeezed, not copied row for row.
- **Invalid states are preconditions.** There is no graceful handling of an empty registry or an out-of-range `currentView`; the source indexes the `views` array there and fails. These cases are preconditions: `CanFold` for `fold()` and `CanFinish` for the finishing tick. In `FoldingProperties.Run` they appear as `None`.

## Model

| member | source | states |
|---|---|---|
| JavaInt.Add32 | app/src/main/java/nl/elements/flipanimation/FoldingLayout.java:140 | `currentView + foldingDirection` is a 32-bit sum: exact in range, one wrap of 2^32 past either end |
| JavaInt.Mul32 | app/src/main/java/nl/elements/flipanimation/FoldingLayout.java:289-292 | `progress*255` and `progress*-1` are 32-bit products: exact in range, otherwise the `int` congruent to the product modulo 2^32 |
| JavaInt.Neg32 | app/src/main/java/nl/elements/flipanimation/FoldingLayout.java:195 | Java negation: exact except that `Integer.MIN_VALUE` negates to itself |
| JavaInt.Div100 | app/src/main/java/nl/elements/flipanimation/FoldingLayout.java:289-292 | `x/100` truncates toward zero: the quotient times 100 lies within 100 of `x`, on the zero side |
| JavaInt.FloatToInt | app/src/main/java/nl/elements/flipanimation/FoldingLayout.java:235 | the `(int)` cast of the lighting argument truncates toward zero inside the `int` range and never moves away from zero; at or beyond either end it saturates to `Integer.MAX_VALUE` or `Integer.MIN_VALUE` |
| Lighting.ArgbColor | app/src/main/java/nl/elements/flipanimation/FoldingLayout.java:290-293 | `Color.argb` keeps the low byte of the alpha argument; that byte equals the argument when it is already a byte |
| Lighting.ApplyLightness | app/src/main/java/nl/elements/flipanimation/FoldingLayout.java:285-296 | progress > 0 gives white SRC_OVER, progress <= 0 gives black SRC_ATOP; on [-100,100] the alpha is floor(abs(progress)*255/100), within [0,255]; progress 0 gives alpha 0 |
| Lighting.LightnessMonotone | app/src/main/java/nl/elements/flipanimation/FoldingLayout.java:282-296 | on [-100,100] a larger abs(progress) never gives a fainter tint, and ±100 gives the opaque 255 |
| Geometry.ClipBitmap | app/src/main/java/nl/elements/flipanimation/FoldingLayout.java:319-335 | the clipped bitmap has the view's full width and half its height rounded down, whatever rows are requested |
| Geometry.GenerateRectangles | app/src/main/java/nl/elements/flipanimation/FoldingLayout.java:304-309 | front quadrants come from the front view, back quadrants from the back view; every quadrant has full width and half height |
| Geometry.SplitCoversView | app/src/main/java/nl/elements/flipanimation/FoldingLayout.java:305-308 | top and bottom strips are disjoint, cover every row of the view and stay inside it; for odd heights the bottom strip has one row more than its target |
| Geometry.SourceStripsRestack | app/src/main/java/nl/elements/flipanimation/FoldingLayout.java:305-308 | stacking a view's top-strip rows on its bottom-strip rows gives back all of its rows in order |
| FoldingLayout.HideAllViews | app/src/main/java/nl/elements/flipanimation/FoldingLayout.java:124-128 | no registered child is visible afterwards, and the registry size is kept |
| FoldingLayout.ShowSingleChild | app/src/main/java/nl/elements/flipanimation/FoldingLayout.java:116-119 | child i is visible and every other child is hidden |
| FoldingLayout.NextIndex | app/src/main/java/nl/elements/flipanimation/FoldingLayout.java:140-146 | the next index is valid for any int direction; for FOLD_UP/FOLD_DOWN it is (current + direction) mod n |
| FoldingLayout.Fold | app/src/main/java/nl/elements/flipanimation/FoldingLayout.java:133-163 | while folding nothing changes; otherwise `folding` is set, start time is `now`, all children are hidden, next is (current+direction) mod n, the stored quadrants are the `generateRectangles` split with front=current/back=next for FOLD_UP and front=next/back=current otherwise, and registry, current, direction and duration are kept |
| FoldingLayout.SetDirection | app/src/main/java/nl/elements/flipanimation/FoldingLayout.java:187-189 | only the direction changes, in either state |
| FoldingLayout.SetDuration | app/src/main/java/nl/elements/flipanimation/FoldingLayout.java:353-355 | only the duration changes, in either state, so it also governs a fold already in flight |
| FoldingLayout.ReverseDirection | app/src/main/java/nl/elements/flipanimation/FoldingLayout.java:194-196 | the direction becomes its Java negation, which swaps FOLD_UP and FOLD_DOWN; nothing else changes |
| FoldingLayout.FoldDirection | app/src/main/java/nl/elements/flipanimation/FoldingLayout.java:178-181 | the direction ends up `d` even when the fold is ignored; an accepted fold hides every child, starts at `now`, keeps registry, current index and duration, and targets (current + d) mod n |
| FoldingLayout.FoldReverse | app/src/main/java/nl/elements/flipanimation/FoldingLayout.java:168-171 | the direction is reversed even when the fold is ignored; an accepted fold hides every child, starts at `now`, keeps registry, current index and duration, and targets (current − old direction) mod n |
| FoldingLayout.StopAnimation | app/src/main/java/nl/elements/flipanimation/FoldingLayout.java:270-278 | folding ends, current becomes the next index from fold start, only that child of the whole registry is visible, and the listener gets (current, its view, direction at completion) |
| FoldingLayout.Tick | app/src/main/java/nl/elements/flipanimation/FoldingLayout.java:200-265 | idle ticks draw the children and request nothing; a folding tick finishes iff elapsed >= duration, committing the fold-start index, showing only that child and keeping next, duration, start time and quadrants; otherwise the state is unchanged, TOP_BACK and BOTTOM_FRONT are drawn static, and exactly one quadrant rotates: TOP_FRONT iff t < 0.5, else BOTTOM_BACK, with t mirrored to 1−t for FOLD_DOWN; another frame is requested |
| FoldingLayout.Layout | app/src/main/java/nl/elements/flipanimation/FoldingLayout.java:99-107 | while idle the registry becomes the children and only child 0 of the new registry is visible, with current/next/direction/start time untouched; while folding nothing changes |
| FoldingProperties.CompleteFold | app/src/main/java/nl/elements/flipanimation/FoldingLayout.java:152-154 | `fold()` followed by the `stopAnimation()` of lines 270-278 lands on the next index computed at fold start, shows exactly that child and keeps the registry ready |
| FoldingProperties.FoldsCycle | app/src/main/java/nl/elements/flipanimation/FoldingLayout.java:140-146 | k complete folds up from c reach (c + k) mod n; k folds down reach (c − k) mod n |
| FoldingProperties.FoldsFollowNextIndex | app/src/main/java/nl/elements/flipanimation/FoldingLayout.java:140-154 | k complete folds take k successive next-index steps |
| FoldingProperties.FoldIsGuardedAgainstReentry | app/src/main/java/nl/elements/flipanimation/FoldingLayout.java:133-136 | a second `fold()` during a fold, at any time, leaves the state as the first one left it |
| FoldingProperties.ReverseIsInvolution | app/src/main/java/nl/elements/flipanimation/FoldingLayout.java:194-196 | reversing the direction twice restores the state, `Integer.MIN_VALUE` included |
| FoldingProperties.DirectionChangeDuringFold | app/src/main/java/nl/elements/flipanimation/FoldingLayout.java:270-278 | after a mid-fold `setDirection(d)` the finishing tick still commits the index from fold start, and the listener receives d |
| FoldingProperties.LinearSwitchesAtHalfDuration | app/src/main/java/nl/elements/flipanimation/FoldingLayout.java:206-222 | with linear easing the top front rotates folding up iff less than half the duration has elapsed, and folding down iff more than half has |
| FoldingProperties.DirectionChangeMirrorsFoldInFlight | app/src/main/java/nl/elements/flipanimation/FoldingLayout.java:209-211 | switching to FOLD_DOWN early in a linear up-fold changes that tick's rotating quadrant from TOP_FRONT to BOTTOM_BACK |
| FoldingProperties.ShorterDurationEndsFoldInFlight | app/src/main/java/nl/elements/flipanimation/FoldingLayout.java:206-216 | after `setDuration(ms)` during a fold, the next tick finishes the fold exactly when the elapsed time has reached `ms`, committing the index chosen at fold start |
| FoldingProperties.FoldFrameOnlyDarkens | app/src/main/java/nl/elements/flipanimation/FoldingLayout.java:222-256 | for t in [0,1] the lighting argument lies in [-50,0], so the rotating quadrant is darkened (SRC_ATOP black) with alpha at most 127 |
| FoldingProperties.LinearFramesDarken | app/src/main/java/nl/elements/flipanimation/FoldingLayout.java:206-256 | with linear easing every composited frame darkens its rotating quadrant, with alpha at most 127 |
| FoldingProperties.TwoChildFold | app/src/main/java/nl/elements/flipanimation/FoldingLayout.java:200-278 | two children, 500 ms, folding up, linear: at 0 ms TOP_FRONT with alpha 0; at 250 ms BOTTOM_BACK with alpha 127; at 500 ms it finishes on child 1, which alone is visible, and the listener gets (1, child 1, FOLD_UP) |
| FoldingProperties.LayoutHidesNonzeroCurrent | app/src/main/java/nl/elements/flipanimation/FoldingLayout.java:99-107 | an idle layout keeps a non-zero `currentView` but leaves that child hidden |
| FoldingProperties.StepPreservesInv | app/src/main/java/nl/elements/flipanimation/FoldingLayout.java:99-196 | each of `fold`, `foldReverse`, `foldDirection`, `setDirection`, `reverseDirection`, `setDuration`, a tick and a layout pass preserves the invariant: during a fold all children are hidden, indices are valid and quadrants are set; when idle with a registry, exactly one child is visible |
| FoldingProperties.RunKeepsInv | app/src/main/java/nl/elements/flipanimation/FoldingLayout.java:99-278 | any sequence of those calls that does not fail preserves that invariant |
| FoldingProperties.InitKeepsInv | app/src/main/java/nl/elements/flipanimation/FoldingLayout.java:52-65 | the freshly constructed layout (no registry, folding down, 500 ms) satisfies the invariant |

## Left out

- The Camera/Matrix perspective transforms and the rotation angles `-t*180` and `(1-t)*180`. These are floating-point 3D graphics done by the platform.
- Canvas drawing, real `PorterDuffColorFilter` objects, and the pixel copying and scaling of `clipBitmap`. Quadrants are strip and size descriptors, and filters are (colour, mode) pairs.
- `Bitmap.createBitmap` throws for zero-sized bitmaps, that is, views of width 0 or height below 2. This platform check is not modelled.
- `getDrawingCache` may return null for views that cannot be cached. This is not modelled.
- `System.currentTimeMillis()` is the `now` parameter.
- The `invalidate()` redraw loop is the `redraw` flag of a tick. The `invalidate()` calls in `fold()` only start the ticks, so `Fold` does not report them.
- A tick during a fold requires the clock not to have gone back since the fold started.
- `long` overflow of times is not modelled.
- The interpolator is a `real -> real` parameter of `Tick`; the linear default is `FoldingProperties.Linear`. The lazy `null` → `LinearInterpolator` assignment in `fold()` is not modelled separately.
- Float rounding is not modelled. `deltaTime` is a float, `(float) deltaTime / duration` is a float division, `deltaTime >= duration` compares floats, and `t*100` is rounded. The model uses exact rationals, which differ only beyond 2^24 ms of elapsed time or in the last bit of `t*100`.
- `Color.argb`'s red, green and blue packing is not modelled. The filter keeps the channels separately, with the alpha byte that packing preserves.
- `getDuration`, `getInterpolator`, `setInterpolator`, `getOnFoldListener` and `setOnFoldListener` are plain field accessors. The duration is a field of `FoldState` and `setDuration` is `SetDuration`; the interpolator is the `curve` argument of each tick, and the listener is the `Finished` frame. None of these accessors changes visibility, so `FoldingProperties.Op` leaves them out.
- A `Finished` frame carries the listener event whether or not a listener is set.
- `halfWidth` is only used by the matrices, so it is left out.
- `MainActivity` is left out. It is a demo that wires click and long-click to `fold()` and `reverseDirection()` and shows a Toast.

=== FILE: folding_layout.dfy ===
/** The fold controller of `FoldingLayout`: an immutable state record and the
    pure transitions the layout performs on it. The host supplies the clock
    (`now`), the interpolator curve and the measured height; Camera, Canvas
    and Bitmap work is reduced to the descriptors of `Geometry` and
    `Lighting`. */
module FoldingLayout {
  import opened Optional
  import opened JavaInt
  import opened Geometry
  import opened Lighting

  const FOLD_UP: Int32 := 1
  const FOLD_DOWN: Int32 := -1
  const DEFAULT_DURATION: int := 500

  /** The layout's fields that the fold logic reads and writes.
      `views` is the child registry captured at layout time and `visible[i]`
      the visibility of `views[i]`; `current` and `next` are `currentView` and
      `nextView`; `direction` is `foldingDirection` (any Java `int`, normally
      FOLD_UP or FOLD_DOWN); `startTime` and `duration` are in milliseconds;
      `quadrants` is the `rectangles` array, unset until the first fold. */
  datatype FoldState = FoldState(
    views: seq<View>,
    visible: seq<bool>,
    current: nat,
    next: nat,
    direction: Int32,
    folding: bool,
    startTime: int,
    duration: int,
    quadrants: Option<QuadrantSet>)

  /** What the fold listener's `onFoldFinished(position, view, direction)` receives. */
  datatype FoldEvent = FoldEvent(position: nat, view: View, direction: Int32)

  /** One drawing operation of a composited fold frame: a quadrant drawn flat
      at vertical offset `y`, or the quadrant that rotates about the midline,
      tinted by `filter`. */
  datatype Layer = Static(quadrant: Quadrant, y: int) | Rotating(quadrant: Quadrant, filter: ColorFilter)

  /** What one `onDraw` produces: the children drawn normally, a composited
      fold frame, or the end of a fold with the event passed to the listener. */
  datatype Frame = ChildrenOnly | Composite(layers: seq<Layer>) | Finished(event: FoldEvent)

  /** The state after a tick, the frame it drew and whether it called `invalidate()`. */
  datatype TickResult = TickResult(state: FoldState, frame: Frame, redraw: bool)

  /** A freshly constructed layout: no registry yet, showing view 0, folding down. */
  function Init(): (r: FoldState)
  {
    FoldState([], [], 0, 0, FOLD_DOWN, false, 0, DEFAULT_DURATION, None)
  }

  /** Exactly child `i` is visible. */
  predicate OnlyVisible(visible: seq<bool>, i: int)
  {
    && 0 <= i < |visible|
    && visible[i]
    && forall j :: 0 <= j < |visible| && j != i ==> !visible[j]
  }

  /** No child is visible. */
  predicate NoneVisible(visible: seq<bool>)
  {
    forall j :: 0 <= j < |visible| ==> !visible[j]
  }

  /** The registry is populated and `currentView` points into it, which is
      all an accepted `fold()` needs to index `views` without failing. */
  predicate CanFold(s: FoldState)
  {
    && 1 <= |s.views| <= INT_MAX
    && |s.visible| == |s.views|
    && s.current < |s.views|
  }

  /** `nextView` points into the registry, which is all the tick that
      finishes a fold needs. */
  predicate CanFinish(s: FoldState)
  {
    |s.visible| == |s.views| && s.next < |s.views|
  }

  /** Both indices point into the populated registry, as during a fold. */
  predicate Ready(s: FoldState)
  {
    CanFold(s) && s.next < |s.views|
  }

  /** `hideAllViews()`: every registered child becomes invisible. */
  function HideAllViews(visible: seq<bool>): (r: seq<bool>)
    ensures |r| == |visible| && NoneVisible(r)
  {
    seq(|visible|, _ => false)
  }

  /** `showSingleChild(i)`: child `i` becomes the only visible one. */
  function ShowSingleChild(visible: seq<bool>, i: nat): (r: seq<bool>)
    requires i < |visible|
    ensures |r| == |visible| && OnlyVisible(r, i)
  {
    HideAllViews(visible)[i := true]
  }

  /** The index `fold()` moves to: `currentView + foldingDirection` in Java
      arithmetic, sent to the last child when it falls below 0 and to child 0
      when it passes the last. It is a valid index whatever the direction;
      for FOLD_UP and FOLD_DOWN it is the neighbour modulo the child count. */
  function NextIndex(current: nat, direction: Int32, n: nat): (r: nat)
    requires 1 <= n <= INT_MAX && current < n
    ensures r < n
    ensures direction == FOLD_UP || direction == FOLD_DOWN ==> r == (current + direction) % n
  {
    var raw := Add32(current, direction);
    var low := if raw < 0 then n - 1 else raw;
    var r := if low > n - 1 then 0 else low;
    WrapStepIsModulo(current, direction, n);
    r
  }

  /** One step of `current` by +1 or -1, wrapped into [0, n), is `%` on the exact sum. */
  lemma WrapStepIsModulo(current: nat, direction: int, n: nat)
    requires 1 <= n && current < n
    ensures direction == 1 || direction == -1 ==>
      (current + direction) % n == (if current + direction < 0 then n - 1 else if current + direction > n - 1 then 0 else current + direction)
  {
  }

  /** `fold()`. While a fold is in flight it does nothing at all. Otherwise
      it computes the next index, cuts the quadrants with the current view
      in front when folding up and the next view in front in any other
      direction, hides every child and starts the fold at `now`; the
      registry, the current index, the direction and the duration are kept. */
  function Fold(s: FoldState, now: int): (r: FoldState)
    requires s.folding || CanFold(s)
    ensures s.folding ==> r == s
    ensures !s.folding ==>
      && r.folding && r.startTime == now
      && r.views == s.views && r.current == s.current
      && r.direction == s.direction && r.duration == s.duration
      && Ready(r) && NoneVisible(r.visible)
      && (s.direction == FOLD_UP || s.direction == FOLD_DOWN ==> r.next == (s.current + s.direction) % |s.views|)
    ensures !s.folding ==>
      var front := if s.direction == FOLD_UP then s.current else r.next;
      var back := if s.direction == FOLD_UP then r.next else s.current;
      r.quadrants == Some(GenerateRectangles(s.views[front], s.views[back]))
  {
    if s.folding then s
    else
      var next := NextIndex(s.current, s.direction, |s.views|);
      var quadrants :=
        if s.direction == FOLD_UP then GenerateRectangles(s.views[s.current], s.views[next])
        else GenerateRectangles(s.views[next], s.views[s.current]);
      s.(next := next, quadrants := Some(quadrants), visible := HideAllViews(s.visible),
         folding := true, startTime := now)
  }

  /** `setDirection(d)`: only the direction changes, in either state. */
  function SetDirection(s: FoldState, d: Int32): (r: FoldState)
    ensures r.direction == d
    ensures r.(direction := s.direction) == s
  {
    s.(direction := d)
  }

  /** `setDuration(ms)`: only the duration changes, in either state; a
      shorter duration can end the fold in flight at the next tick. */
  function SetDuration(s: FoldState, ms: int): (r: FoldState)
    ensures r.duration == ms
    ensures r.(duration := s.duration) == s
  {
    s.(duration := ms)
  }

  /** `reverseDirection()`: the direction is negated in Java arithmetic, which
      swaps FOLD_UP and FOLD_DOWN; nothing else changes. */
  function ReverseDirection(s: FoldState): (r: FoldState)
    ensures r.direction == Neg32(s.direction)
    ensures s.direction == FOLD_UP ==> r.direction == FOLD_DOWN
    ensures s.direction == FOLD_DOWN ==> r.direction == FOLD_UP
    ensures r.(direction := s.direction) == s
  {
    s.(direction := Neg32(s.direction))
  }

  /** `foldDirection(d)`: the direction is set (and stays set) even when the
      fold itself is ignored; an accepted fold moves one step in direction `d`. */
  function FoldDirection(s: FoldState, d: Int32, now: int): (r: FoldState)
    requires s.folding || CanFold(s)
    ensures r.direction == d
    ensures s.folding ==> r == s.(direction := d)
    ensures !s.folding ==> r.folding && r.current == s.current && Ready(r)
    ensures !s.folding ==> NoneVisible(r.visible) && r.views == s.views && r.duration == s.duration && r.startTime == now
    ensures !s.folding && (d == FOLD_UP || d == FOLD_DOWN) ==> r.next == (s.current + d) % |s.views|
  {
    Fold(SetDirection(s, d), now)
  }

  /** `foldReverse()`: the direction is reversed even when the fold itself is
      ignored; an accepted fold moves one step against the old direction. */
  function FoldReverse(s: FoldState, now: int): (r: FoldState)
    requires s.folding || CanFold(s)
    ensures r.direction == Neg32(s.direction)
    ensures s.folding ==> r == s.(direction := Neg32(s.direction))
    ensures !s.folding ==> r.folding && r.current == s.current && Ready(r)
    ensures !s.folding ==> NoneVisible(r.visible) && r.views == s.views && r.duration == s.duration && r.startTime == now
    ensures !s.folding && (s.direction == FOLD_UP || s.direction == FOLD_DOWN) ==>
              r.next == (s.current - s.direction) % |s.views|
  {
    Fold(ReverseDirection(s), now)
  }

  /** `stopAnimation()`: the fold ends, the index computed when it started
      becomes current, that child alone is shown and the listener learns its
      position, the view and the direction as it stands now. */
  function StopAnimation(s: FoldState): (r: (FoldState, FoldEvent))
    requires CanFinish(s)
    ensures !r.0.folding && r.0.current == s.next
    ensures |r.0.visible| == |s.visible| && OnlyVisible(r.0.visible, s.next)
    ensures r.0.views == s.views && r.0.next == s.next && r.0.direction == s.direction
    ensures r.0.duration == s.duration && r.0.startTime == s.startTime && r.0.quadrants == s.quadrants
    ensures r.1 == FoldEvent(s.next, s.views[s.next], s.direction)
  {
    var stopped := s.(folding := false, current := s.next, visible := ShowSingleChild(s.visible, s.next));
    (stopped, FoldEvent(stopped.current, s.views[stopped.current], s.direction))
  }

  /** The interpolated time of a tick that does not finish the fold: the
      curve applied to the elapsed fraction of the duration, mirrored as
      `1 - t` when folding down. */
  function Progress(s: FoldState, now: int, curve: real -> real): (r: real)
    requires s.startTime <= now < s.startTime + s.duration
  {
    var t := curve((now - s.startTime) as real / s.duration as real);
    if s.direction == FOLD_DOWN then 1.0 - t else t
  }

  /** The lighting argument `(int)(-t*100)` for the top half and
      `(int)(t*100-100)` for the bottom half. */
  function LightArgument(t: real): (r: Int32)
  {
    if t < 0.5 then FloatToInt(-t * 100.0) else FloatToInt(t * 100.0 - 100.0)
  }

  /** The quadrant that rotates at interpolated time `t`. */
  function RotatingQuadrant(t: real): (r: Quadrant)
  {
    if t < 0.5 then TopFront else BottomBack
  }

  /** `onDraw` at time `now`, with `curve` the interpolator and
      `measuredHeight` the layout's height. When idle the children are drawn
      and no further frame is asked for. While folding the tick finishes the
      fold exactly when the elapsed time has reached the duration; otherwise
      it leaves the state alone, draws the two static halves and exactly one
      rotating quadrant (the front top before the midpoint of the
      interpolated time, the back bottom from it on) and asks for another frame. */
  function Tick(s: FoldState, now: int, curve: real -> real, measuredHeight: nat): (r: TickResult)
    requires s.folding ==> CanFinish(s) && s.startTime <= now
    ensures !s.folding ==> r == TickResult(s, ChildrenOnly, false)
    ensures s.folding ==> r.redraw
    ensures s.folding ==> (r.frame.Finished? <==> now - s.startTime >= s.duration)
    ensures s.folding && r.frame.Finished? ==>
      && !r.state.folding && r.state.current == s.next
      && |r.state.visible| == |s.visible| && OnlyVisible(r.state.visible, s.next)
      && r.state.views == s.views && r.state.direction == s.direction
      && r.state.next == s.next && r.state.duration == s.duration
      && r.state.startTime == s.startTime && r.state.quadrants == s.quadrants
      && r.frame.event == FoldEvent(s.next, s.views[s.next], s.direction)
    ensures s.folding && !r.frame.Finished? ==>
      && r.state == s && r.frame.Composite?
      && |r.frame.layers| == 3
      && r.frame.layers[0] == Static(TopBack, 0)
      && r.frame.layers[1] == Static(BottomFront, measuredHeight / 2)
      && r.frame.layers[2].Rotating?
      && (r.frame.layers[2].quadrant == TopFront <==> Progress(s, now, curve) < 0.5)
      && (r.frame.layers[2].quadrant == BottomBack <==> Progress(s, now, curve) >= 0.5)
      && r.frame.layers[2].filter == ApplyLightness(LightArgument(Progress(s, now, curve)))
  {
    if !s.folding then
      TickResult(s, ChildrenOnly, false)
    else if now - s.startTime >= s.duration then
      var (stopped, event) := StopAnimation(s);
      TickResult(stopped, Finished(event), true)
    else
      var t := Progress(s, now, curve);
      var layers := [
        Static(TopBack, 0),
        Static(BottomFront, measuredHeight / 2),
        Rotating(RotatingQuadrant(t), ApplyLightness(LightArgument(t)))];
      TickResult(s, Composite(layers), true)
  }

  /** `onLayout`: while idle the registry is rebuilt from the children and
      only child 0 is shown, but `currentView` and `nextView` are left as they
      were; during a fold nothing changes. */
  function Layout(s: FoldState, children: seq<View>): (r: FoldState)
    requires s.folding || 1 <= |children| <= INT_MAX
    ensures s.folding ==> r == s
    ensures !s.folding ==>
      && r.views == children && |r.visible| == |children| && OnlyVisible(r.visible, 0)
      && r.current == s.current && r.next == s.next && r.direction == s.direction
      && !r.folding && r.startTime == s.startTime && r.duration == s.duration && r.quadrants == s.quadrants
  {
    if s.folding then s
    else
      var registered := s.(views := children, visible := seq(|children|, i => true));
      registered.(visible := ShowSingleChild(registered.visible, 0))
  }
}

=== FILE: folding_properties.dfy ===
/** Properties of `FoldingLayout` that relate several calls: repeated folds,
    direction changes during a fold, the switch between the two halves of a
    fold, the lighting of fold frames, a whole two-page fold, and the
    visibility invariant the layout keeps across any sequence of calls. */
module FoldingProperties {
  import opened Optional
  import opened JavaInt
  import opened Geometry
  import opened Lighting
  import opened FoldingLayout

  /** The default interpolator, `LinearInterpolator`: the identity curve. */
  function Linear(x: real): (r: real) { x }

  /** `fold()` followed by the tick that finishes it. */
  function CompleteFold(s: FoldState, now: int): (r: FoldState)
    requires CanFold(s) && !s.folding
    ensures Ready(r) && !r.folding
    ensures r.views == s.views && r.direction == s.direction && r.duration == s.duration
    ensures r.current == Fold(s, now).next && OnlyVisible(r.visible, r.current)
  {
    StopAnimation(Fold(s, now)).0
  }

  /** `k` complete folds in a row. */
  function FoldRepeatedly(s: FoldState, k: nat, now: int): (r: FoldState)
    requires CanFold(s) && !s.folding
    ensures CanFold(r) && !r.folding
    ensures r.views == s.views && r.direction == s.direction
    ensures k > 0 ==> OnlyVisible(r.visible, r.current)
    decreases k
  {
    if k == 0 then s else FoldRepeatedly(CompleteFold(s, now), k - 1, now)
  }

  /** `%` is determined by any quotient-remainder decomposition. */
  lemma ModUnique(x: int, q: int, r: int, n: int)
    requires n > 0 && x == q * n + r && 0 <= r < n
    ensures x % n == r
  {
    var q0 := x / n;
    assert x == q0 * n + x % n;
    assert (q - q0) * n == x % n - r;
    SmallMultipleIsZero(q - q0, n);
  }

  /** The only multiple of `n` strictly between `-n` and `n` is zero. */
  lemma SmallMultipleIsZero(d: int, n: int)
    requires n > 0 && -n < d * n < n
    ensures d == 0
  {
  }

  lemma ModAdd(a: int, b: int, n: int)
    requires n > 0
    ensures (a % n + b) % n == (a + b) % n
  {
    var q := a / n;
    var y := a % n + b;
    assert a == q * n + a % n;
    assert y == (y / n) * n + y % n;
    assert a + b == (q + y / n) * n + y % n;
    ModUnique(a + b, q + y / n, y % n, n);
  }

  /** The signed number of children `k` folds in direction `d` move by. */
  function Steps(k: nat, d: Int32): (r: int)
  {
    if d == FOLD_UP then k else -(k as int)
  }

  /** The index reached from `c` by `k` successive `NextIndex` steps. */
  function CycleIndex(c: nat, d: Int32, n: nat, k: nat): (r: nat)
    requires 1 <= n <= INT_MAX && c < n
    ensures r < n
    decreases k
  {
    if k == 0 then c else CycleIndex(NextIndex(c, d, n), d, n, k - 1)
  }

  /** Repeated folds visit the children cyclically: k folds up from child c
      land on (c + k) mod n, and k folds down on (c - k) mod n. */
  lemma FoldsCycle(s: FoldState, k: nat, now: int)
    requires CanFold(s) && !s.folding
    requires s.direction == FOLD_UP || s.direction == FOLD_DOWN
    ensures FoldRepeatedly(s, k, now).current == (s.current + Steps(k, s.direction)) % |s.views|
  {
    var n, c, d := |s.views|, s.current, s.direction;
    CycleIndexIsModulo(c, d, n, k);
    var target := (c + Steps(k, d)) % n;
    assert CycleIndex(c, d, n, k) == target;
    FoldsFollowNextIndex(s, k, now);
  }

  /** `k` complete folds move the current index by `k` `NextIndex` steps. */
  lemma {:induction false} FoldsFollowNextIndex(s: FoldState, k: nat, now: int)
    requires CanFold(s) && !s.folding
    ensures FoldRepeatedly(s, k, now).current == CycleIndex(s.current, s.direction, |s.views|, k)
    decreases k
  {
    if k > 0 {
      var s1 := CompleteFold(s, now);
      assert s1.current == NextIndex(s.current, s.direction, |s.views|);
      FoldsFollowNextIndex(s1, k - 1, now);
    }
  }

  /** `k` `NextIndex` steps up or down are `k` steps modulo `n`. */
  lemma {:induction false} CycleIndexIsModulo(c: nat, d: Int32, n: nat, k: nat)
    requires 1 <= n <= INT_MAX && c < n
    requires d == FOLD_UP || d == FOLD_DOWN
    ensures CycleIndex(c, d, n, k) == (c + Steps(k, d)) % n
    decreases k
  {
    if k == 0 {
      ModUnique(c, 0, c, n);
    } else {
      CycleIndexIsModulo(NextIndex(c, d, n), d, n, k - 1);
      StepsAdd(c, d, k, n);
    }
  }

  /** One step in direction `d` followed by `k - 1` more, modulo `n`, is `k` steps. */
  lemma StepsAdd(c: int, d: Int32, k: nat, n: int)
    requires n > 0 && k > 0
    requires d == FOLD_UP || d == FOLD_DOWN
    ensures ((c + d) % n + Steps(k - 1, d)) % n == (c + Steps(k, d)) % n
  {
    assert c + d + Steps(k - 1, d) == c + Steps(k, d);
    ModAdd(c + d, Steps(k - 1, d), n);
  }

  /** A second `fold()` during a fold is ignored, at any time. */
  lemma FoldIsGuardedAgainstReentry(s: FoldState, now: int, later: int)
    requires CanFold(s) && !s.folding
    ensures Fold(Fold(s, now), later) == Fold(s, now)
  {
  }

  /** `reverseDirection()` undoes itself. */
  lemma ReverseIsInvolution(s: FoldState)
    ensures ReverseDirection(ReverseDirection(s)) == s
  {
    Neg32Involution(s.direction);
  }

  /** A direction change during a fold does not redirect it: the finishing
      tick still commits the index computed when the fold started, while the
      listener is told the direction as it stands at completion. */
  lemma DirectionChangeDuringFold(s: FoldState, now: int, d: Int32, later: int, curve: real -> real, height: nat)
    requires CanFold(s) && !s.folding
    requires now <= later && later - now >= s.duration
    ensures var f := Fold(s, now);
      var r := Tick(SetDirection(f, d), later, curve, height);
      && r.frame == Finished(FoldEvent(f.next, s.views[f.next], d))
      && r.state.current == f.next && OnlyVisible(r.state.visible, f.next)
  {
  }

  /** With the linear curve the rotating quadrant switches exactly at half
      the duration: folding up, the top front rotates while less than half
      the duration has elapsed; folding down, while more than half has. */
  lemma LinearSwitchesAtHalfDuration(s: FoldState, now: int, height: nat)
    requires CanFinish(s) && s.folding
    requires s.startTime <= now < s.startTime + s.duration
    ensures var layers := Tick(s, now, Linear, height).frame.layers;
      && (s.direction == FOLD_UP ==> (layers[2].quadrant == TopFront <==> 2 * (now - s.startTime) < s.duration))
      && (s.direction == FOLD_DOWN ==> (layers[2].quadrant == TopFront <==> 2 * (now - s.startTime) > s.duration))
  {
    var e := (now - s.startTime) as real;
    var d := s.duration as real;
    HalfwayByElapsed(e, d);
  }

  /** For elapsed time `e` of duration `d`, the fraction e/d is below one
      half exactly when 2e < d, and above exactly when 2e > d. */
  lemma HalfwayByElapsed(e: real, d: real)
    requires d > 0.0
    ensures e / d < 0.5 <==> 2.0 * e < d
    ensures 1.0 - e / d < 0.5 <==> 2.0 * e > d
  {
  }

  /** Every tick reads the direction afresh, so reversing it during a fold
      mirrors the fold in flight: early in a linear fold up the top front
      rotates, and after switching to down the same tick draws the bottom
      back instead. */
  lemma DirectionChangeMirrorsFoldInFlight(s: FoldState, now: int, height: nat)
    requires CanFinish(s) && s.folding && s.direction == FOLD_UP
    requires s.startTime <= now && 2 * (now - s.startTime) < s.duration
    ensures Tick(s, now, Linear, height).frame.layers[2].quadrant == TopFront
    ensures Tick(SetDirection(s, FOLD_DOWN), now, Linear, height).frame.layers[2].quadrant == BottomBack
  {
    LinearSwitchesAtHalfDuration(s, now, height);
    LinearSwitchesAtHalfDuration(SetDirection(s, FOLD_DOWN), now, height);
  }

  /** `setDuration` during a fold governs the fold in flight: the next tick
      finishes it exactly when the time already elapsed reaches the new duration. */
  lemma ShorterDurationEndsFoldInFlight(s: FoldState, ms: int, now: int, curve: real -> real, height: nat)
    requires CanFinish(s) && s.folding && s.startTime <= now
    ensures Tick(SetDuration(s, ms), now, curve, height).frame.Finished? <==> now - s.startTime >= ms
    ensures now - s.startTime >= ms ==> Tick(SetDuration(s, ms), now, curve, height).state.current == s.next
  {
  }

  /** For an interpolated time in [0, 1] the lighting argument lies in
      [-50, 0]: a fold frame only ever darkens its rotating quadrant
      (black, source-atop) and never beyond alpha 127. */
  lemma FoldFrameOnlyDarkens(t: real)
    requires 0.0 <= t <= 1.0
    ensures -50 <= LightArgument(t) <= 0
    ensures ApplyLightness(LightArgument(t)).mode == SrcAtop
    ensures ApplyLightness(LightArgument(t)).color.alpha <= 127
  {
  }

  /** With the linear curve every fold frame draws a darkened quadrant. */
  lemma LinearFramesDarken(s: FoldState, now: int, height: nat)
    requires CanFinish(s) && s.folding
    requires s.startTime <= now < s.startTime + s.duration
    ensures Tick(s, now, Linear, height).frame.layers[2].filter.mode == SrcAtop
    ensures Tick(s, now, Linear, height).frame.layers[2].filter.color.alpha <= 127
  {
    var x := (now - s.startTime) as real / s.duration as real;
    assert 0.0 <= x < 1.0;
    FoldFrameOnlyDarkens(Progress(s, now, Linear));
  }

  /** Two children, 500 ms, folding up with the linear curve: at the start
      the top front is drawn flat with no tint; at 250 ms the bottom back
      takes over at half shade (alpha 127); at 500 ms the fold finishes on
      child 1 and the listener receives (1, child 1, FOLD_UP). */
  lemma TwoChildFold(v0: View, v1: View, start: int, height: nat)
    ensures
      var s := Fold(SetDirection(Layout(Init(), [v0, v1]), FOLD_UP), start);
      && Tick(s, start, Linear, height).frame
           == Composite([Static(TopBack, 0), Static(BottomFront, height / 2), Rotating(TopFront, ApplyLightness(0))])
      && ApplyLightness(0).color.alpha == 0
      && Tick(s, start + 250, Linear, height).frame
           == Composite([Static(TopBack, 0), Static(BottomFront, height / 2), Rotating(BottomBack, ApplyLightness(-50))])
      && ApplyLightness(-50).color.alpha == 127
      && Tick(s, start + 500, Linear, height).frame == Finished(FoldEvent(1, v1, FOLD_UP))
      && OnlyVisible(Tick(s, start + 500, Linear, height).state.visible, 1)
  {
  }

  /** `onLayout` while idle shows child 0 but keeps `currentView`, so a
      current view other than 0 is left hidden. */
  lemma LayoutHidesNonzeroCurrent(s: FoldState, children: seq<View>)
    requires !s.folding && 1 <= |children| <= INT_MAX
    requires 0 < s.current < |children|
    ensures Layout(s, children).current == s.current
    ensures !Layout(s, children).visible[s.current]
  {
  }

  /** The visibility invariant: the registry and the visibility vector agree
      in size; during a fold every child is hidden, both indices are valid
      and the quadrants are set; when idle with a registry, exactly one
      child is visible. */
  predicate Inv(s: FoldState)
  {
    && |s.visible| == |s.views| <= INT_MAX
    && (s.folding ==> Ready(s) && NoneVisible(s.visible) && s.quadrants.Some?)
    && (!s.folding && |s.views| > 0 ==> exists i :: 0 <= i < |s.visible| && OnlyVisible(s.visible, i))
  }

  /** One public call on the layout, or a redraw or layout pass by the host. */
  datatype Op =
    | FoldOp(now: int)
    | FoldReverseOp(now: int)
    | FoldDirectionOp(d: Int32, now: int)
    | SetDirectionOp(d: Int32)
    | SetDurationOp(ms: int)
    | ReverseDirectionOp
    | TickOp(now: int, curve: real -> real, height: nat)
    | LayoutOp(children: seq<View>)

  /** The call can run without the source failing (an index out of range on
      an empty or shrunk registry) and with a clock that has not gone back. */
  predicate Enabled(s: FoldState, op: Op)
  {
    match op
    case FoldOp(_) => s.folding || CanFold(s)
    case FoldReverseOp(_) => s.folding || CanFold(s)
    case FoldDirectionOp(_, _) => s.folding || CanFold(s)
    case SetDirectionOp(_) => true
    case SetDurationOp(_) => true
    case ReverseDirectionOp => true
    case TickOp(now, _, _) => s.folding ==> CanFinish(s) && s.startTime <= now
    case LayoutOp(children) => s.folding || 1 <= |children| <= INT_MAX
  }

  function Step(s: FoldState, op: Op): (r: FoldState)
    requires Enabled(s, op)
  {
    match op
    case FoldOp(now) => Fold(s, now)
    case FoldReverseOp(now) => FoldReverse(s, now)
    case FoldDirectionOp(d, now) => FoldDirection(s, d, now)
    case SetDirectionOp(d) => SetDirection(s, d)
    case SetDurationOp(ms) => SetDuration(s, ms)
    case ReverseDirectionOp => ReverseDirection(s)
    case TickOp(now, curve, height) => Tick(s, now, curve, height).state
    case LayoutOp(children) => Layout(s, children)
  }

  /** Every call keeps the visibility invariant. */
  lemma StepPreservesInv(s: FoldState, op: Op)
    requires Inv(s) && Enabled(s, op)
    ensures Inv(Step(s, op))
  {
  }

  /** Runs the calls in order; None when one of them would fail in the source. */
  function Run(s: FoldState, ops: seq<Op>): (r: Option<FoldState>)
    decreases |ops|
  {
    if |ops| == 0 then Some(s)
    else if !Enabled(s, ops[0]) then None
    else Run(Step(s, ops[0]), ops[1..])
  }

  /** From a freshly constructed layout, whatever sequence of calls runs
      without failing ends in a state that keeps the visibility invariant:
      when idle after the first layout exactly one child is shown. */
  lemma {:induction false} RunKeepsInv(s: FoldState, ops: seq<Op>)
    requires Inv(s)
    ensures Run(s, ops).Some? ==> Inv(Run(s, ops).value)
    decreases |ops|
  {
    if |ops| > 0 && Enabled(s, ops[0]) {
      StepPreservesInv(s, ops[0]);
      RunKeepsInv(Step(s, ops[0]), ops[1..]);
    }
  }

  lemma InitKeepsInv()
    ensures Inv(Init())
  {
  }
}

=== FILE: geometry.dfy ===
/** The geometry of `FoldingLayout.generateRectangles` and `clipBitmap`: how a
    child view is cut at its vertical midpoint into the four half-bitmaps
    (quadrants) that one fold composites. Pixels are not modelled; a quadrant
    is described by the strip of source rows it is copied from and the size of
    the bitmap it is drawn into. */
module Geometry {

  /** A child view of the layout, as its drawing cache sees it. */
  datatype View = View(id: nat, width: nat, height: nat)

  /** The four quadrants of a fold, in the source's index order
      TOP_FRONT = 0, TOP_BACK = 1, BOTTOM_FRONT = 2, BOTTOM_BACK = 3. */
  datatype Quadrant = TopFront | TopBack | BottomFront | BottomBack

  /** A clipped bitmap: rows [top, bottom) of `view`'s drawing cache, scaled
      into a fresh bitmap of `width` x `height` pixels. */
  datatype Strip = Strip(view: View, top: int, bottom: int, width: nat, height: nat)

  /** The `rectangles` array of one fold. */
  datatype QuadrantSet = QuadrantSet(topFront: Strip, topBack: Strip, bottomFront: Strip, bottomBack: Strip)
  {
    function Get(q: Quadrant): (s: Strip)
    {
      match q
      case TopFront => topFront
      case TopBack => topBack
      case BottomFront => bottomFront
      case BottomBack => bottomBack
    }
  }

  /** Whether row `y` of the view is copied by strip `s`. */
  predicate Covers(s: Strip, y: int)
  {
    s.top <= y < s.bottom
  }

  /** `clipBitmap(view, top, bottom)`: the target bitmap always has the
      view's full width and half its height rounded down, whatever rows are
      asked for; the requested rows are the source rectangle. */
  function ClipBitmap(view: View, top: int, bottom: int): (s: Strip)
    ensures s.view == view && s.top == top && s.bottom == bottom
    ensures s.width == view.width
    ensures 2 * s.height <= view.height <= 2 * s.height + 1
  {
    Strip(view, top, bottom, view.width, view.height / 2)
  }

  /** `generateRectangles(front, back)`: the top quadrants come from the
      upper half of each view, the bottom quadrants from the lower half;
      the front quadrants come from `front`, the back ones from `back`. */
  function GenerateRectangles(front: View, back: View): (q: QuadrantSet)
    ensures q.topFront.view == front && q.bottomFront.view == front
    ensures q.topBack.view == back && q.bottomBack.view == back
    ensures forall k: Quadrant :: q.Get(k).width == q.Get(k).view.width
    ensures forall k: Quadrant :: 2 * q.Get(k).height <= q.Get(k).view.height <= 2 * q.Get(k).height + 1
  {
    QuadrantSet(
      ClipBitmap(front, 0, front.height / 2),
      ClipBitmap(back, 0, back.height / 2),
      ClipBitmap(front, front.height / 2, front.height),
      ClipBitmap(back, back.height / 2, back.height))
  }

  /** The two halves of each view split it exactly: every row of the view
      lies in exactly one of its top and bottom strips, and no strip reaches
      outside the view. The top strip is exactly as tall as its target; the
      bottom strip is too when the height is even and one row taller (so it
      is squeezed) when the height is odd. */
  lemma SplitCoversView(front: View, back: View)
    ensures var q := GenerateRectangles(front, back);
      && (forall y :: 0 <= y < front.height ==> (Covers(q.topFront, y) <==> !Covers(q.bottomFront, y)))
      && (forall y :: 0 <= y < back.height ==> (Covers(q.topBack, y) <==> !Covers(q.bottomBack, y)))
      && (forall k: Quadrant :: 0 <= q.Get(k).top <= q.Get(k).bottom <= q.Get(k).view.height)
      && (forall k: Quadrant :: k == TopFront || k == TopBack ==> q.Get(k).bottom - q.Get(k).top == q.Get(k).height)
      && (forall k: Quadrant :: k == BottomFront || k == BottomBack ==>
            q.Get(k).bottom - q.Get(k).top == q.Get(k).height + q.Get(k).view.height % 2)
  {
  }

  /** Slicer round trip: stacking the source rows of a view's top strip on
      those of its bottom strip gives back every row of the view, in order,
      with no row lost or repeated. */
  lemma SourceStripsRestack<T>(front: View, back: View, frontRows: seq<T>, backRows: seq<T>)
    requires |frontRows| == front.height && |backRows| == back.height
    ensures var q := GenerateRectangles(front, back);
      && frontRows[q.topFront.top..q.topFront.bottom] + frontRows[q.bottomFront.top..q.bottomFront.bottom] == frontRows
      && backRows[q.topBack.top..q.topBack.bottom] + backRows[q.bottomBack.top..q.bottomBack.bottom] == backRows
  {
  }
}

=== FILE: java_int.dfy ===
/** Java's 32-bit `int` arithmetic, written out over Dafny's unbounded integers:
    two's-complement wrap-around for `+`, `*` and unary `-`, division that
    truncates toward zero, and the `(int)` cast of a floating-point value. */
module JavaInt {

  const INT_MIN: int := -0x8000_0000
  const INT_MAX: int := 0x7fff_ffff
  const TWO_POW_32: int := 0x1_0000_0000

  /** The values of a Java `int`. */
  type Int32 = x: int | INT_MIN <= x <= INT_MAX

  /** Reduces an unbounded integer to the `int` with the same low 32 bits. */
  function Wrap32(x: int): (r: Int32)
    ensures (r - x) % TWO_POW_32 == 0
    ensures INT_MIN <= x <= INT_MAX ==> r == x
  {
    var q := (x - INT_MIN) / TWO_POW_32;
    assert x - INT_MIN == q * TWO_POW_32 + (x - INT_MIN) % TWO_POW_32;
    assert (x - INT_MIN) % TWO_POW_32 + INT_MIN - x == -q * TWO_POW_32;
    (x - INT_MIN) % TWO_POW_32 + INT_MIN
  }

  /** Java `a + b` on two `int`s. */
  function Add32(a: Int32, b: Int32): (r: Int32)
    ensures INT_MIN <= a + b <= INT_MAX ==> r == a + b
    ensures a + b > INT_MAX ==> r == a + b - TWO_POW_32
    ensures a + b < INT_MIN ==> r == a + b + TWO_POW_32
  {
    Wrap32(a + b)
  }

  /** Java unary `-a`: every value but `Integer.MIN_VALUE` is negated, which is its own negation. */
  function Neg32(a: Int32): (r: Int32)
    ensures a != INT_MIN ==> r == -a
    ensures a == INT_MIN ==> r == INT_MIN
  {
    Wrap32(-(a as int))
  }

  /** Java `a * b` on two `int`s. */
  function Mul32(a: Int32, b: Int32): (r: Int32)
    ensures INT_MIN <= a * b <= INT_MAX ==> r == a * b
    ensures (r - a * b) % TWO_POW_32 == 0
  {
    Wrap32(a * b)
  }

  /** Java `a / 100`: the quotient is truncated toward zero, so it never
      lies farther from zero than the exact quotient. */
  function Div100(a: int): (q: int)
    ensures a >= 0 ==> 0 <= 100 * q <= a < 100 * q + 100
    ensures a < 0 ==> 100 * q - 100 < a <= 100 * q <= 0
  {
    if a >= 0 then a / 100 else -((-a) / 100)
  }

  /** Java's `(int)` cast of a finite floating-point value: truncation toward
      zero, saturating at the ends of the `int` range. */
  function FloatToInt(x: real): (r: Int32)
    ensures INT_MIN as real <= x < (INT_MAX + 1) as real ==> (r as real <= x < r as real + 1.0 || r as real - 1.0 < x <= r as real)
    ensures x >= 0.0 ==> 0 <= r && r as real <= x
    ensures x <= 0.0 ==> r <= 0 && x <= r as real
    ensures x >= INT_MAX as real ==> r == INT_MAX
    ensures x <= INT_MIN as real ==> r == INT_MIN
  {
    var z := if x >= 0.0 then x.Floor else -((-x).Floor);
    if z < INT_MIN then INT_MIN else if z > INT_MAX then INT_MAX else z
  }

  /** Negation in 32 bits undoes itself, `Integer.MIN_VALUE` included. */
  lemma Neg32Involution(a: Int32)
    ensures Neg32(Neg32(a)) == a
  {
  }
}

=== FILE: lighting.dfy ===
/** The lighting filter: `FoldingLayout.applyLightness`, which turns a signed
    amount of light into a tinting colour filter for the rotating half of a fold. */
module Lighting {
  import opened JavaInt

  /** The two Porter-Duff modes the filter uses. */
  datatype BlendMode = SrcOver | SrcAtop

  /** A colour as its four 8-bit channels. */
  datatype Argb = Argb(alpha: int, red: int, green: int, blue: int)

  /** A `PorterDuffColorFilter`: a tint colour composited with a blend mode. */
  datatype ColorFilter = ColorFilter(color: Argb, mode: BlendMode)

  predicate IsByte(x: int) { 0 <= x < 256 }

  /** `Color.argb(a, r, g, b)` packs `(a << 24) | (r << 16) | (g << 8) | b`;
      with byte-sized colour channels the alpha channel that survives the
      packing is the low byte of `a`. */
  function ArgbColor(a: Int32, red: int, green: int, blue: int): (c: Argb)
    requires IsByte(red) && IsByte(green) && IsByte(blue)
    ensures IsByte(c.alpha) && (c.alpha - a) % 256 == 0
    ensures IsByte(a) ==> c.alpha == a
    ensures c.red == red && c.green == green && c.blue == blue
  {
    Argb(a % 256, red, green, blue)
  }

  const WHITE: int := 255
  const BLACK: int := 0

  /** The Java `int` expression that becomes the tint's alpha:
      `progress*255/100` when lightening, `(progress*-1)*255/100` otherwise. */
  function LightnessValue(progress: Int32): (r: Int32)
  {
    var magnitude := if progress > 0 then progress else Mul32(progress, -1);
    Div100(Mul32(magnitude, 255))
  }

  /** Absolute value, the size of a lighting step. */
  function Abs(x: int): (r: nat) { if x < 0 then -x else x }

  /** Positive progress lightens with translucent white painted over the
      image; zero or negative progress darkens with translucent black painted
      only over opaque pixels. On the documented range [-100, 100] no Java
      overflow or byte masking happens: the alpha is |progress| scaled from
      100 to 255, rounded down, hence within a byte, and zero progress is a
      fully transparent (no-op) tint. */
  function ApplyLightness(progress: Int32): (f: ColorFilter)
    ensures progress > 0 ==> f.mode == SrcOver && f.color.red == f.color.green == f.color.blue == WHITE
    ensures progress <= 0 ==> f.mode == SrcAtop && f.color.red == f.color.green == f.color.blue == BLACK
    ensures IsByte(f.color.alpha)
    ensures -100 <= progress <= 100 ==>
              f.color.alpha * 100 <= Abs(progress) * 255 < f.color.alpha * 100 + 100
    ensures progress == 0 ==> f.color.alpha == 0
  {
    var value := LightnessValue(progress);
    if progress > 0 then
      ColorFilter(ArgbColor(value, WHITE, WHITE, WHITE), SrcOver)
    else
      ColorFilter(ArgbColor(value, BLACK, BLACK, BLACK), SrcAtop)
  }

  /** More light or more shade never gives a fainter tint: on [-100, 100] the
      alpha grows with |progress|, reaching the opaque 255 at both ends. */
  lemma LightnessMonotone(p: Int32, q: Int32)
    requires -100 <= p <= 100 && -100 <= q <= 100
    requires Abs(p) <= Abs(q)
    ensures ApplyLightness(p).color.alpha <= ApplyLightness(q).color.alpha
    ensures Abs(q) == 100 ==> ApplyLightness(q).color.alpha == 255
  {
  }
}

=== FILE: option.dfy ===
/** An optional value, for fields that start out unset. */
module Optional {

  datatype Option<+T> = None | Some(value: T)
}
